=== FILE: README.md ===
# Local video library — a Dafny model of its core

The application is a browser page that keeps a personal video library. The
user picks video files. For each file, the page takes the last frame as a
JPEG thumbnail and stores the file with its metadata in an IndexedDB object
store. The gallery shows the library newest first, and one video at a time
plays in an overlay. A service worker keeps the app shell in a versioned
cache and serves same-origin GET requests cache-first.

This project models the decision logic under that browser glue as pure
transitions over abstract state. Browser APIs become inputs:

- `RecordStore` (`record_store.dfy`): the `videos` object store. It is a
  `map<nat, Record>` plus the key generator's current number. `SaveVideo`,
  `LoadAllVideos` and `DeleteVideo` follow the key-generator rules of
  section 2.11 of the W3C Indexed Database API 3.0. Keys start at 1 and grow
  by one. Generation fails once the current number exceeds 2^53. A failed
  add rolls back the generator with the rest of the operation.
- `Thumbnail` (`thumbnail.dfy`): `generateThumbnail` as a fold of its three
  listeners (`error`, `loadedmetadata`, `seeked`) over the events the media
  element fires. Drawing and encoding the frame is an oracle carried by the
  `seeked` event: it yields a data URL or throws. The fold records every
  effect: creating the temporary URL, revoking it, sizing the canvas and
  each resolve/reject call. Its result is proved equal to
  `FirstSettlement`, a front-to-back scan of the events, and the batch
  loop reads a file's thumbnail outcome through that scan.
- `Player` (`player.dfy`): the single playback object-URL slot behind
  `openPlayer` and `closePlayer`. The state keeps the log of
  `createObjectURL` and `revokeObjectURL` calls, so the order of the calls
  inside `openPlayer` is part of the model.
- `Library` (`library.dfy`): the `change` handler's batch loop,
  `renderGallery`, `init` and the delete button. The loop is proved equal to
  `Batch`, a recursive definition of the same batch, and the batch
  properties are proved about `Batch` by induction. The gallery is the list of
  records behind its children. Toasts and the loading overlay become a log of
  `Notice`s. For each file, an `Attempt` supplies the browser's answers: the
  media events, whether the write commits, and the two clock readings.
- `OfflineCache` (`offline_cache.dfy`): `sw.js`. CacheStorage is the list of
  named caches in creation order, because `caches.match` answers from the
  first cache that holds the URL. The network is a map from URL to response.
  A URL missing from the map fails to fetch. The handlers are parameterised
  by the version token. The deployed token is `"v1"`.
- `Util` (`util.dfy`): `Option`, `Result`, and `Reverse` with its index
  characterisation.

Each `await` is treated as one atomic step. No network, clock or randomness
is used. Object URLs are fresh serial numbers. `Date.now()` is an input.

Four behaviours of the code are easy to misread, and the model keeps them as
written:

- The completion toast `${files.length}件の動画を追加しました` (app.js:277)
  counts every selected file, failures included. It appears only when more
  than one file was selected.
- `install` opens the cache with the current name. If that cache already
  exists, `install` adds to it rather than creating a new generation.
  `caches.open` creates the cache before `addAll` runs. After a failed
  install, an empty cache with the current name can therefore remain. It
  answers no lookups.
- When `loadAllVideos` fails, `init` leaves the gallery as it was and shows
  an error toast. It does not render an empty library.
- A thumbnail promise that never settles (no `error` and no `seeked` event)
  is not a failure. The handler waits at that `await` for ever, so the files
  after it are never processed. The batch model reports this as `stalled`.

## Model

| member | source | states |
|---|---|---|
| RecordStore.Upgrade | app.js:13-19 | opening the database keeps an existing `videos` store with all its rows; only a missing store is created, empty, with the generator at 1 |
| RecordStore.SaveVideo | app.js:104-114 | a successful save returns the generator's current value as the key, which is not in the store and is above every existing key, and advances the generator by one; the new record carries the file's name, size (byte length), type, the clock reading, the thumbnail and the file itself; every other record is unchanged; it fails, leaving no record, exactly when the write aborts or the generator is past 2^53 |
| RecordStore.LoadAllVideos | app.js:116-118 | the listing holds every stored record once, each equal to the stored value, in strictly ascending key order |
| RecordStore.DeleteVideo | app.js:120-122 | deleting removes only the key `id`; every other record and the generator are unchanged; deleting an absent id leaves the store unchanged |
| RecordStore.SaveAppendsToListing | app.js:104-118 | after a successful save, the listing is the previous listing with exactly the new record appended |
| RecordStore.DeleteFiltersListing | app.js:116-122 | after a delete, the listing is the previous listing with only the records of that id removed, in the same order |
| RecordStore.KeysNeverReused | app.js:104-122 | over any history of saves and deletes, the keys handed out strictly increase, none was a key before the history began, and all stay below the final generator value, so a deleted key is never reused |
| Thumbnail.CanvasWidth | app.js:88 | the canvas width is positive: the video's width when that is non-zero, otherwise 640 |
| Thumbnail.CanvasHeight | app.js:89 | the canvas height is positive: the video's height when that is non-zero, otherwise 360 |
| Thumbnail.GenerateThumbnail | app.js:62-100 | for any event sequence, the temporary URL is created once, as the first effect; every resolve or reject is immediately preceded by revoking it (on the error path, the success path and the capture-throws path alike); the promise takes the first settlement given by an independent front-to-back reference scan; a settled extraction has revoked its URL |
| Thumbnail.PendingIffNoSettlingEvent | app.js:74-98 | the promise stays pending exactly when every event was `loadedmetadata` |
| Thumbnail.StalledKeepsUrl | app.js:64-98 | while the promise is pending, the temporary URL has not been revoked, so a stalled file leaks it |
| Thumbnail.CanvasSizedByFallback | app.js:85-90 | every canvas size the extraction sets is the width and height of one of the `seeked` events' videos, each replaced by 640 or 360 when it is zero |
| Player.OpenPlayer | app.js:197-215 | opening keeps the call history and ends with creating a fresh URL for the record's blob; at the moment of that creation no playback URL is live, because the slot's URL was revoked first; afterwards the fresh URL is the only live one, no two URLs were ever live together, and the overlay is shown |
| Player.ClosePlayer | app.js:217-227 | closing keeps the call history, revokes the slot's URL, empties the slot and hides the overlay; no playback URL stays live |
| Player.CloseIdempotent | app.js:217-227 | closing an already closed player changes nothing |
| Player.AtMostOneLiveUrl | app.js:195-227 | for any sequence of opens and closes from page load, at most one playback URL is live, and it is the one in the slot; at no moment of the call history, including between the revoke and the create inside `openPlayer`, were two playback URLs live |
| Library.RenderGallery | app.js:179-186 | the gallery is the given records in exactly reverse order |
| Library.RenderedListingIsNewestFirst | app.js:179-186 | rendering the store's listing shows every stored record once, with ids strictly descending (newest first) |
| Library.Init | app.js:282-291 | a successful load renders the store newest first with no notice; a failed load leaves the gallery alone and emits a single load-failure notice |
| Library.DeleteItem | app.js:163-174 | a committed delete removes the record from the store, leaves the key generator where it was, and removes its item from the gallery and emits one removal notice; a failed delete changes nothing and emits nothing; a gallery in step with the store stays in step |
| Library.DeleteItemKeepsOrder | app.js:163-174 | deleting keeps the remaining gallery items in their order: removing from a gallery split in two is removing from each part, in place |
| Library.DeleteKeepsSync | app.js:163-174 | deleting a record from the store and its item from a gallery that shows the store newest first leaves a gallery that still does so |
| Library.ProcessFile | app.js:253-273 | for a file whose thumbnail settled: a record is saved only if the thumbnail resolved and the write committed, and it carries the file and that thumbnail; the new item, with the saved key, goes to the front of the gallery; on any failure, store and gallery are unchanged |
| Library.ProcessFileKeepsSync | app.js:254-268 | prepending the new item after a save keeps a gallery that shows the store newest first in step with it |
| Library.AddFiles | app.js:240-278 | an empty selection changes nothing and emits nothing; otherwise the loop ends in exactly the store, gallery, outcomes and stall of `Batch`, an independent front-to-back definition of the batch; notices are loading-shown, one failure per failed file in input order, then loading-hidden and, for more than one file, a count of all selected files |
| Library.BatchReachesFilesInOrder | app.js:247-274 | files are reached strictly in input order; only a thumbnail that never settles stops the batch, so every file before that point is handled, whatever happened to the files before it |
| Library.BatchOutcomesAgree | app.js:247-274 | each file reached has an outcome explained by its own thumbnail and write, judged against the final store (a saved file's record is still there at the end), and no existing record is lost |
| Library.BatchKeysFresh | app.js:247-274 | the keys saved in a batch are fresh and strictly ascending in input order, and the store gains exactly those keys, so a failed file adds no record |
| Library.BatchPrependsNewestFirst | app.js:247-274 | the gallery gains one item per saved file at its front, the last saved first, ahead of the items it already had |
| Library.BatchKeepsSync | app.js:247-274 | a gallery that shows the store newest first still does so after the batch |
| Library.CompletionToastCountsSelection | app.js:276-277 | the completion notice appears exactly for a finished batch of more than one file, and its count is the number of files selected |
| OfflineCache.CacheNameFor | sw.js:4-5 | the cache name is the prefix `video-lib-` followed by the version token |
| OfflineCache.CacheNameInjective | sw.js:1-5 | distinct version tokens give distinct cache names |
| OfflineCache.DeployedCacheName | sw.js:4-5 | the deployed cache name is `video-lib-v1` |
| OfflineCache.Match | sw.js:45 | a lookup misses exactly when no cache holds the URL; a hit returns the response from the first cache, in creation order, that holds it |
| OfflineCache.Open | sw.js:18 | opening adds the name, creating an empty cache only when the name is new; every other cache stays the same |
| OfflineCache.OpenKeepsOrder | sw.js:18 | opening keeps every existing cache in its place, and adds at most one cache, last |
| OfflineCache.PutAllKeepsOrder | sw.js:50 | storing entries moves no cache: the caches keep their number and their places |
| OfflineCache.OpenKeepsMatch | sw.js:18 | opening a cache never changes what a lookup answers |
| OfflineCache.PutAllMatch | sw.js:50 | storing entries into a named cache changes no lookup of any other URL; a URL no cache held before is then answered with its new entry |
| OfflineCache.Install | sw.js:7-22 | install succeeds exactly when all five shell paths fetch with a storable response; on success the current cache holds exactly what it held before (nothing when it is new) plus each shell URL with its fetched response, and lookups of every non-shell URL answer as before; on failure every lookup answers as before and the current cache holds what it held before, or nothing when it is new; caches with other names are untouched; existing generations keep their places and a new one comes last |
| OfflineCache.InstallKeepsOlderAnswers | sw.js:15-22 | installing a new generation changes no answer for a URL an older generation already holds, so until activation pages keep receiving the older response |
| OfflineCache.NonShellAfterActivation | sw.js:15-36 | after install and activation, a URL outside the app shell is answered only from what the current generation held before the install, so an asset only an older generation cached misses |
| OfflineCache.Activate | sw.js:25-36 | after activation the only possible cache name is the current one, and its contents are unchanged |
| OfflineCache.ActivateIdempotent | sw.js:25-32 | activating a second time is a no-op |
| OfflineCache.ActivatedMatchesCurrentOnly | sw.js:25-45 | after activation, a lookup answers exactly from the current cache, so an asset held only by an older generation is a miss |
| OfflineCache.HandleFetch | sw.js:39-56 | non-GET or cross-origin requests pass through with storage untouched; a hit returns the cached response with no change; on a miss, a network error propagates with no change; otherwise the network response is returned unchanged, a non-ok response is never stored, an ok one (other than 206) is written into the current cache only, a 206 leaves the current cache holding what it held before (or nothing when it is new), and other caches are untouched; after a miss, the lookup of that URL hits exactly when its response was storable (ok and not 206), and the lookup of every other URL answers as before; the generations keep their order, with a new cache last |
| OfflineCache.ShellServedOffline | sw.js:16-56 | when every shell path fetched a storable response at install time, then after install and activation a GET for a shell path is answered from the cache with the install-time response, whatever the network now says |

## Left out

- DOM construction and effects are left out: `createGalleryItem` markup, the toast timer, the loading overlay and its progress text, `updateEmptyState`, the Escape-key handler and the 250 ms delete animation. Toasts and overlay changes appear only as `Notice`s.
- Decoding, seeking, drawing and JPEG encoding are browser calls. Their outcome is the `Capture` oracle of each `seeked` event. The seek target `Math.max(0, duration - 0.1)` is floating-point and appears only as a `SeekNearEnd` effect. `formatFileSize` is floating-point formatting and is not modelled.
- Thumbnail.GenerateThumbnail accepts events in any order, including `seeked` before `loadedmetadata`. That is a superset of what a media element delivers, and every stated property holds for all of them.
- The internals of IndexedDB, CacheStorage and `fetch` are abstract maps plus outcome inputs. Per the Service Workers specification, `cache.addAll` is all-or-nothing, and it rejects a failed fetch, a non-ok status or a 206. `cache.put` rejects a 206. Cache keys are request URLs. Vary headers and match options are not modelled.
- A failure of `openDB` at module load stops the whole script, so nothing in this model runs. It is not modelled.
- Service-worker lifecycle side effects are not modelled: `skipWaiting`, `clients.claim`, the `controllerchange` reload, and registration in `app.js`. Neither is autoplay rejection in `openPlayer`, which is caught and ignored.
- The un-awaited `cache.put` in the fetch handler is applied atomically once the response is chosen. It is not modelled as a race with later requests.
- The gallery item built after a save reads `Date.now()` again. Its `createdAt` is the `Attempt`'s second clock reading and is not compared with the stored one: `SameEntry` ignores `createdAt`.
- Library.DeleteItem drops every gallery item with the deleted id, while `li.remove()` drops one element. The two agree whenever the gallery is in step with the store, because each id then appears once.
- Library.AddFiles does not model handlers running concurrently: a second `change` event, or a delete click during a batch. Each handler runs to completion on the state it starts from.


=== FILE: library.dfy ===
/** The page's controller logic in `app.js`: the initial load, the gallery
    ordering, the delete button and the file-input `change` handler that
    extracts a thumbnail and saves each selected file in turn.

    The gallery is the list of records behind the gallery's children, first
    child first. DOM construction, toasts and the loading overlay are
    reduced to a log of `Notice`s. Each `await` is one atomic step; the
    outcomes of the browser calls made for a file (the media events seen by
    the thumbnail extractor, whether the store's write commits, and the two
    clock readings) come in as an `Attempt`. */
module Library {
  import opened Util
  import opened RecordStore
  import Thumbnail

  /** What the user is told, in order. */
  datatype Notice =
    | LoadingShown
    | ProcessFailed(fileName: string)
    | LoadingHidden
    | BatchAdded(count: nat)
    | Removed
    | LoadFailed

  /** Two records that agree on everything but the creation timestamp. The
      item built after a save reads the clock again, so its `createdAt` is
      not the stored one. */
  predicate SameEntry(a: Record, b: Record)
  {
    a.id == b.id && a.name == b.name && a.size == b.size && a.mimeType == b.mimeType
    && a.thumbnail == b.thumbnail && a.blob == b.blob
  }

  /** The gallery shows `listing` in reverse: its first item is the listing's last. */
  predicate Shows(gallery: seq<Record>, listing: seq<Record>)
  {
    |gallery| == |listing|
    && forall i :: 0 <= i < |gallery| ==> SameEntry(gallery[i], listing[|listing| - 1 - i])
  }

  /** The gallery shows every stored record exactly once, newest first. */
  predicate InSync(gallery: seq<Record>, s: Store)
  {
    Shows(gallery, LoadAllVideos(s))
  }

  lemma ShowsPrepend(gallery: seq<Record>, listing: seq<Record>, item: Record, rec: Record)
    ensures Shows(gallery, listing) && SameEntry(item, rec) ==> Shows([item] + gallery, listing + [rec])
  {
    var g, l := [item] + gallery, listing + [rec];
    forall i | 0 <= i < |g| && Shows(gallery, listing) && SameEntry(item, rec)
      ensures SameEntry(g[i], l[|l| - 1 - i])
    {
      if i > 0 {
        assert g[i] == gallery[i - 1];
        assert l[|l| - 1 - i] == listing[|listing| - 1 - (i - 1)];
      }
    }
  }

  lemma ShowsUncons(gallery: seq<Record>, listing: seq<Record>)
    requires Shows(gallery, listing) && gallery != []
    ensures Shows(gallery[1..], listing[..|listing| - 1])
    ensures SameEntry(gallery[0], listing[|listing| - 1])
    ensures listing == listing[..|listing| - 1] + [listing[|listing| - 1]]
  {
    var g, l := gallery[1..], listing[..|listing| - 1];
    forall i | 0 <= i < |g|
      ensures SameEntry(g[i], l[|l| - 1 - i])
    {
      assert g[i] == gallery[i + 1];
    }
  }

  /** Removing one id from a gallery and from the listing it shows keeps the correspondence. */
  lemma {:induction false} ShowsWithout(gallery: seq<Record>, listing: seq<Record>, id: nat)
    requires Shows(gallery, listing)
    ensures Shows(Without(gallery, id), Without(listing, id))
    decreases |gallery|
  {
    if gallery == [] {
      assert listing == [];
    } else {
      var l := listing[..|listing| - 1];
      var last := listing[|listing| - 1];
      ShowsUncons(gallery, listing);
      ShowsWithout(gallery[1..], l, id);
      WithoutAppend(l, [last], id);
      var tail := Without(gallery[1..], id);
      assert Without(gallery, id) == (if gallery[0].id == id then [] else [gallery[0]]) + tail;
      assert Without([last], id) == (if last.id == id then [] else [last]) + Without([], id);
      if gallery[0].id == id {
        assert Without(gallery, id) == tail;
        assert Without(listing, id) == Without(l, id) + [];
      } else {
        assert Without(listing, id) == Without(l, id) + [last];
        ShowsPrepend(tail, Without(l, id), gallery[0], last);
      }
    }
  }

  /** A committed delete that also drops the item from the gallery keeps the gallery in step with the store. */
  lemma DeleteKeepsSync(s: Store, gallery: seq<Record>, id: nat)
    ensures InSync(gallery, s) ==> InSync(Without(gallery, id), DeleteVideo(s, id))
  {
    if InSync(gallery, s) {
      DeleteFiltersListing(s, id);
      ShowsWithout(gallery, LoadAllVideos(s), id);
    }
  }

  // ---- Rendering and initial load -------------------------------------------

  /** `renderGallery(records)`: the gallery becomes a copy of `records` reversed. */
  function RenderGallery(records: seq<Record>): (gallery: seq<Record>)
    ensures |gallery| == |records|
    ensures forall i :: 0 <= i < |records| ==> gallery[i] == records[|records| - 1 - i]
  {
    Reverse(records)
  }

  /** Rendering the full listing shows the store newest first. */
  lemma RenderedListingIsNewestFirst(s: Store)
    ensures InSync(RenderGallery(LoadAllVideos(s)), s)
    ensures Descending(Ids(RenderGallery(LoadAllVideos(s))))
  {
    var listing := LoadAllVideos(s);
    ReverseOfAscending(Ids(listing));
    assert Ids(RenderGallery(listing)) == Reverse(Ids(listing));
  }

  /** `init()`: `readOk` says whether `loadAllVideos` succeeded. On failure
      the gallery is left as it was and a load-failure toast is shown. */
  function Init(gallery: seq<Record>, s: Store, readOk: bool): (r: (seq<Record>, seq<Notice>))
    ensures readOk ==> InSync(r.0, s) && Descending(Ids(r.0)) && r.1 == []
    ensures !readOk ==> r.0 == gallery && r.1 == [LoadFailed]
  {
    if readOk then
      RenderedListingIsNewestFirst(s);
      (RenderGallery(LoadAllVideos(s)), [])
    else (gallery, [LoadFailed])
  }

  // ---- Delete button ---------------------------------------------------------

  /** The delete button of the item for `id`: `commits` says whether
      `deleteVideo` succeeded. When it rejects, the handler stops at the
      `await`: nothing is removed and nothing is shown. */
  function DeleteItem(s: Store, gallery: seq<Record>, id: nat, commits: bool): (r: (Store, seq<Record>, seq<Notice>))
    ensures commits ==>
      && r.0.records.Keys == s.records.Keys - {id}
      && r.0.next == s.next
      && (forall k :: k in r.0.records ==> r.0.records[k] == s.records[k])
      && (forall x :: x in r.1 <==> x in gallery && x.id != id)
      && r.2 == [Removed]
    ensures !commits ==> r == (s, gallery, [])
    ensures InSync(gallery, s) ==> InSync(r.1, r.0)
  {
    if commits then
      DeleteKeepsSync(s, gallery, id);
      WithoutMembers(gallery, id);
      (DeleteVideo(s, id), Without(gallery, id), [Removed])
    else (s, gallery, [])
  }

  /** Deleting keeps the remaining items in their gallery order: items on
      either side of any split point stay on that side. */
  lemma DeleteItemKeepsOrder(s: Store, front: seq<Record>, back: seq<Record>, id: nat)
    ensures DeleteItem(s, front + back, id, true).1 == DeleteItem(s, front, id, true).1 + DeleteItem(s, back, id, true).1
  {
    WithoutAppend(front, back, id);
  }

  // ---- Adding files ----------------------------------------------------------

  /** The browser's answers for one selected file. */
  datatype Attempt = Attempt(
    media: seq<Thumbnail.MediaEvent>,
    commits: bool,
    savedAt: int,
    shownAt: int)

  /** What happened to one file of a batch. */
  datatype FileOutcome =
    | Saved(key: nat)
    | ThumbnailFailed(reason: string)
    | SaveFailed(error: StoreError)

  /** How the file's thumbnail promise settles: the reference settlement
      that `Thumbnail.GenerateThumbnail` is proved to reach on these events. */
  function Extracted(attempt: Attempt): Thumbnail.Settlement
  {
    Thumbnail.FirstSettlement(attempt.media)
  }

  /** `outcome` is what the file's attempt must produce, judged against the
      store `final` at the end of the batch: a record exists only for a file
      whose thumbnail resolved and whose write committed, and it carries the
      file and that thumbnail; a failure is explained by its cause. */
  predicate Agrees(file: File, attempt: Attempt, outcome: FileOutcome, final: Store)
  {
    var ext := Extracted(attempt);
    match outcome
    case Saved(k) =>
      && ext.Resolved? && attempt.commits
      && k in final.records && final.records[k] == NewRecord(k, file, ext.dataUrl, attempt.savedAt)
    case ThumbnailFailed(reason) => ext == Thumbnail.Rejected(reason)
    case SaveFailed(e) =>
      && ext.Resolved?
      && (e == TransactionAborted ==> !attempt.commits)
      && (e == KeyGeneratorExhausted ==> final.next > MaxGeneratedKey)
  }

  /** `later` keeps every record of `earlier` and the generator has not gone back. */
  predicate Grows(earlier: Store, later: Store)
  {
    && earlier.next <= later.next
    && forall k :: k in earlier.records ==> k in later.records && later.records[k] == earlier.records[k]
  }

  lemma AgreesLater(file: File, attempt: Attempt, outcome: FileOutcome, s1: Store, s2: Store)
    requires Agrees(file, attempt, outcome, s1) && Grows(s1, s2)
    ensures Agrees(file, attempt, outcome, s2)
  {
  }

  datatype Step = Step(store: Store, gallery: seq<Record>, outcome: FileOutcome)

  /** One iteration of the `change` loop for a file whose thumbnail promise
      settled: save only after the thumbnail resolved, then prepend the new
      item; any rejection is caught and leaves store and gallery alone. */
  function ProcessFile(s: Store, gallery: seq<Record>, file: File, attempt: Attempt): (r: Step)
    requires !Extracted(attempt).Pending?
    ensures Agrees(file, attempt, r.outcome, r.store)
    ensures Grows(s, r.store)
    ensures r.outcome.Saved? ==>
      && r.outcome.key == s.next && r.store.next == s.next + 1
      && r.store.records.Keys == s.records.Keys + {r.outcome.key}
      && |r.gallery| == |gallery| + 1 && r.gallery[1..] == gallery
      && r.gallery[0].id == r.outcome.key && SameEntry(r.gallery[0], r.store.records[r.outcome.key])
      && r.gallery[0].createdAt == attempt.shownAt
    ensures !r.outcome.Saved? ==> r.store == s && r.gallery == gallery
  {
    match Extracted(attempt)
    case Rejected(reason) => Step(s, gallery, ThumbnailFailed(reason))
    case Resolved(thumbnail) =>
      match SaveVideo(s, file, thumbnail, attempt.savedAt, attempt.commits)
      case Err(e) => Step(s, gallery, SaveFailed(e))
      case Ok((key, s')) =>
        var item := NewRecord(key, file, thumbnail, attempt.shownAt);
        assert ([item] + gallery)[1..] == gallery;
        Step(s', [item] + gallery, Saved(key))
  }

  /** Prepending the new item keeps a gallery in step with the store in step. */
  lemma ProcessFileKeepsSync(s: Store, gallery: seq<Record>, file: File, attempt: Attempt)
    requires !Extracted(attempt).Pending?
    ensures var r := ProcessFile(s, gallery, file, attempt);
      InSync(gallery, s) ==> InSync(r.gallery, r.store)
  {
    var r := ProcessFile(s, gallery, file, attempt);
    if r.outcome.Saved? {
      var thumbnail := Extracted(attempt).dataUrl;
      var key := r.outcome.key;
      SaveAppendsToListing(s, file, thumbnail, attempt.savedAt, attempt.commits);
      ShowsPrepend(gallery, LoadAllVideos(s), r.gallery[0], r.store.records[key]);
      assert r.gallery == [r.gallery[0]] + gallery;
    }
  }

  /** Keys of the saved files, in input order. */
  function SavedKeys(outcomes: seq<FileOutcome>): seq<nat>
  {
    if outcomes == [] then []
    else (if outcomes[0].Saved? then [outcomes[0].key] else []) + SavedKeys(outcomes[1..])
  }

  /** One error toast per failed file, in input order. */
  function FailureNotices(files: seq<File>, outcomes: seq<FileOutcome>): seq<Notice>
    requires |outcomes| <= |files|
  {
    if outcomes == [] then []
    else
      var n := |outcomes| - 1;
      FailureNotices(files, outcomes[..n]) + (if outcomes[n].Saved? then [] else [ProcessFailed(files[n].name)])
  }

  lemma FailureNoticesSnoc(files: seq<File>, outcomes: seq<FileOutcome>, o: FileOutcome)
    requires |outcomes| < |files|
    ensures FailureNotices(files, outcomes + [o]) ==
      FailureNotices(files, outcomes) + (if o.Saved? then [] else [ProcessFailed(files[|outcomes|].name)])
  {
    assert (outcomes + [o])[..|outcomes|] == outcomes;
  }

  /** The notices the `change` handler emits after the loop has run. */
  function ClosingNotices(fileCount: nat, stalled: bool): seq<Notice>
  {
    if stalled then [] else [LoadingHidden] + (if fileCount > 1 then [BatchAdded(fileCount)] else [])
  }

  /** Where a batch leaves the store and the gallery, what happened to each
      file reached, and whether a never-settling thumbnail suspended it. */
  datatype BatchRun = BatchRun(store: Store, gallery: seq<Record>, outcomes: seq<FileOutcome>, stalled: bool)

  /** Reference definition of the batch, one file at a time from the front:
      a file whose thumbnail never settles suspends the rest for good;
      otherwise the file is handled and the batch goes on with the rest. */
  function Batch(s: Store, gallery: seq<Record>, files: seq<File>, attempts: seq<Attempt>): BatchRun
    requires |attempts| == |files|
    decreases |files|
  {
    if files == [] then BatchRun(s, gallery, [], false)
    else if Extracted(attempts[0]).Pending? then BatchRun(s, gallery, [], true)
    else
      var step := ProcessFile(s, gallery, files[0], attempts[0]);
      var rest := Batch(step.store, step.gallery, files[1..], attempts[1..]);
      rest.(outcomes := [step.outcome] + rest.outcomes)
  }

  /** A run of the remaining files, after `done` files were already handled. */
  function Resume(done: seq<FileOutcome>, run: BatchRun): BatchRun
  {
    run.(outcomes := done + run.outcomes)
  }

  /** The file-input `change` handler. Files are handled one at a time in
      input order; a file whose thumbnail promise never settles suspends the
      handler for good (`stalled`), so the files after it are never reached.
      `outcomes` has one entry per file reached. */
  method AddFiles(s: Store, gallery: seq<Record>, files: seq<File>, attempts: seq<Attempt>) returns (final: Store, shown: seq<Record>, outcomes: seq<FileOutcome>, notices: seq<Notice>, stalled: bool)
    requires |attempts| == |files|
    ensures files == [] ==> final == s && shown == gallery && outcomes == [] && notices == [] && !stalled
    ensures Batch(s, gallery, files, attempts) == BatchRun(final, shown, outcomes, stalled)
    ensures |outcomes| <= |files|
    ensures files != [] ==>
      notices == [LoadingShown] + FailureNotices(files, outcomes) + ClosingNotices(|files|, stalled)
  {
    final, shown, outcomes, notices, stalled := s, gallery, [], [], false;
    if files == [] {
      return;
    }
    var failures: seq<Notice> := [];
    var i := 0;
    while i < |files|
      invariant 0 <= i <= |files|
      invariant |outcomes| == i && !stalled
      invariant Batch(s, gallery, files, attempts) == Resume(outcomes, Batch(final, shown, files[i..], attempts[i..]))
      invariant failures == FailureNotices(files, outcomes)
    {
      if Extracted(attempts[i]).Pending? {
        assert Batch(final, shown, files[i..], attempts[i..]) == BatchRun(final, shown, [], true);
        stalled := true;
        break;
      }
      var step := ProcessFile(final, shown, files[i], attempts[i]);
      ResumeStep(s, gallery, files, attempts, i, final, shown, outcomes);
      FailureNoticesSnoc(files, outcomes, step.outcome);
      final, shown, outcomes := step.store, step.gallery, outcomes + [step.outcome];
      failures := failures + (if step.outcome.Saved? then [] else [ProcessFailed(files[i].name)]);
      i := i + 1;
    }
    notices := [LoadingShown] + failures + ClosingNotices(|files|, stalled);
  }

  /** Handling file `i` moves the loop one file further through the batch. */
  lemma ResumeStep(
    s: Store, gallery: seq<Record>, files: seq<File>, attempts: seq<Attempt>,
    i: nat, cur: Store, curGallery: seq<Record>, outcomes: seq<FileOutcome>)
    requires |attempts| == |files| && i < |files| && !Extracted(attempts[i]).Pending?
    requires Batch(s, gallery, files, attempts) == Resume(outcomes, Batch(cur, curGallery, files[i..], attempts[i..]))
    ensures var step := ProcessFile(cur, curGallery, files[i], attempts[i]);
      Batch(s, gallery, files, attempts) ==
        Resume(outcomes + [step.outcome], Batch(step.store, step.gallery, files[i + 1..], attempts[i + 1..]))
  {
    var step := ProcessFile(cur, curGallery, files[i], attempts[i]);
    BatchFront(cur, curGallery, files[i..], attempts[i..]);
    assert files[i..][1..] == files[i + 1..] && attempts[i..][1..] == attempts[i + 1..];
    var rest := Batch(step.store, step.gallery, files[i + 1..], attempts[i + 1..]);
    assert Batch(cur, curGallery, files[i..], attempts[i..]) == Resume([step.outcome], rest);
    assert outcomes + ([step.outcome] + rest.outcomes) == (outcomes + [step.outcome]) + rest.outcomes;
  }

  /** Handling the first file and then running the rest is the whole batch. */
  lemma BatchFront(s: Store, gallery: seq<Record>, files: seq<File>, attempts: seq<Attempt>)
    requires |attempts| == |files| && files != [] && !Extracted(attempts[0]).Pending?
    ensures var step := ProcessFile(s, gallery, files[0], attempts[0]);
      Batch(s, gallery, files, attempts) == Resume([step.outcome], Batch(step.store, step.gallery, files[1..], attempts[1..]))
  {
  }

  /** Files are reached strictly in input order and only a thumbnail that
      never settles stops the batch: every file before the stopping point
      was reached, whatever happened to it. */
  lemma {:induction false} BatchReachesFilesInOrder(s: Store, gallery: seq<Record>, files: seq<File>, attempts: seq<Attempt>)
    requires |attempts| == |files|
    ensures var run := Batch(s, gallery, files, attempts);
      && |run.outcomes| <= |files|
      && (run.stalled <==> |run.outcomes| < |files|)
      && (run.stalled ==> Extracted(attempts[|run.outcomes|]).Pending?)
      && (forall i :: 0 <= i < |run.outcomes| ==> !Extracted(attempts[i]).Pending?)
    decreases |files|
  {
    if files != [] && !Extracted(attempts[0]).Pending? {
      var step := ProcessFile(s, gallery, files[0], attempts[0]);
      BatchReachesFilesInOrder(step.store, step.gallery, files[1..], attempts[1..]);
      var run := Batch(s, gallery, files, attempts);
      forall i | 1 <= i < |run.outcomes|
        ensures !Extracted(attempts[i]).Pending?
      {
        assert attempts[i] == attempts[1..][i - 1];
      }
      if run.stalled {
        assert attempts[|run.outcomes|] == attempts[1..][|run.outcomes| - 1];
      }
    }
  }

  /** Every file reached has an outcome that its thumbnail and its write
      explain, judged against the final store, so a failure neither undoes
      nor blocks anything around it; no record is lost along the way. */
  lemma {:induction false} BatchOutcomesAgree(s: Store, gallery: seq<Record>, files: seq<File>, attempts: seq<Attempt>)
    requires |attempts| == |files|
    ensures var run := Batch(s, gallery, files, attempts);
      && |run.outcomes| <= |files|
      && (forall i :: 0 <= i < |run.outcomes| ==> Agrees(files[i], attempts[i], run.outcomes[i], run.store))
      && Grows(s, run.store)
    decreases |files|
  {
    BatchReachesFilesInOrder(s, gallery, files, attempts);
    if files != [] && !Extracted(attempts[0]).Pending? {
      var step := ProcessFile(s, gallery, files[0], attempts[0]);
      var rest := Batch(step.store, step.gallery, files[1..], attempts[1..]);
      BatchOutcomesAgree(step.store, step.gallery, files[1..], attempts[1..]);
      AgreesLater(files[0], attempts[0], step.outcome, step.store, rest.store);
      var run := Batch(s, gallery, files, attempts);
      forall i | 1 <= i < |run.outcomes|
        ensures Agrees(files[i], attempts[i], run.outcomes[i], run.store)
      {
        assert files[i] == files[1..][i - 1] && attempts[i] == attempts[1..][i - 1];
        assert run.outcomes[i] == rest.outcomes[i - 1];
      }
    }
  }

  /** The keys handed out in a batch are fresh, strictly ascending, and are
      exactly what the store gains. */
  lemma {:induction false} BatchKeysFresh(s: Store, gallery: seq<Record>, files: seq<File>, attempts: seq<Attempt>)
    requires |attempts| == |files|
    ensures var run := Batch(s, gallery, files, attempts);
      var keys := SavedKeys(run.outcomes);
      && s.next <= run.store.next
      && Ascending(keys)
      && (forall k :: k in keys ==> k !in s.records && s.next <= k < run.store.next)
      && (forall k :: k in run.store.records <==> k in s.records || k in keys)
    decreases |files|
  {
    if files != [] && !Extracted(attempts[0]).Pending? {
      var step := ProcessFile(s, gallery, files[0], attempts[0]);
      var rest := Batch(step.store, step.gallery, files[1..], attempts[1..]);
      BatchKeysFresh(step.store, step.gallery, files[1..], attempts[1..]);
      var run := Batch(s, gallery, files, attempts);
      var tail := SavedKeys(rest.outcomes);
      assert run.outcomes[1..] == rest.outcomes;
      if step.outcome.Saved? {
        assert SavedKeys(run.outcomes) == [step.outcome.key] + tail;
        AscendingCons(step.outcome.key, tail);
      } else {
        assert SavedKeys(run.outcomes) == tail;
      }
    }
  }

  lemma AscendingCons(key: nat, tail: seq<nat>)
    requires Ascending(tail) && forall k :: k in tail ==> key < k
    ensures Ascending([key] + tail)
  {
    var keys := [key] + tail;
    forall i, j | 0 <= i < j < |keys|
      ensures keys[i] < keys[j]
    {
      assert keys[j] == tail[j - 1] && tail[j - 1] in tail;
      if i > 0 {
        assert keys[i] == tail[i - 1];
      }
    }
  }

  /** The gallery gains one item per saved file at its front, the newest
      (last saved) first, ahead of the items it already had. */
  lemma {:induction false} BatchPrependsNewestFirst(s: Store, gallery: seq<Record>, files: seq<File>, attempts: seq<Attempt>)
    requires |attempts| == |files|
    ensures var run := Batch(s, gallery, files, attempts);
      var keys := SavedKeys(run.outcomes);
      && |run.gallery| == |keys| + |gallery|
      && run.gallery[|keys|..] == gallery
      && Ids(run.gallery[..|keys|]) == Reverse(keys)
    decreases |files|
  {
    if files != [] && !Extracted(attempts[0]).Pending? {
      var step := ProcessFile(s, gallery, files[0], attempts[0]);
      var rest := Batch(step.store, step.gallery, files[1..], attempts[1..]);
      BatchPrependsNewestFirst(step.store, step.gallery, files[1..], attempts[1..]);
      var run := Batch(s, gallery, files, attempts);
      assert run.outcomes[1..] == rest.outcomes;
      if step.outcome.Saved? {
        assert SavedKeys(run.outcomes) == [step.outcome.key] + SavedKeys(rest.outcomes);
        PrependsOne(rest.gallery, SavedKeys(rest.outcomes), step.gallery, gallery, step.outcome.key);
      } else {
        assert SavedKeys(run.outcomes) == SavedKeys(rest.outcomes);
      }
    }
  }

  /** The gallery bookkeeping of one saved file followed by the rest of the batch. */
  lemma PrependsOne(g: seq<Record>, tail: seq<nat>, mid: seq<Record>, gallery: seq<Record>, key: nat)
    requires |g| == |tail| + |mid| && g[|tail|..] == mid && Ids(g[..|tail|]) == Reverse(tail)
    requires |mid| == |gallery| + 1 && mid[1..] == gallery && mid[0].id == key
    ensures |g| == |tail| + 1 + |gallery|
    ensures g[|tail| + 1..] == gallery
    ensures Ids(g[..|tail| + 1]) == Reverse([key] + tail)
  {
    var n := |tail|;
    assert g[n..] == mid;
    assert g[n] == mid[0] && g[n + 1..] == mid[1..] by {
      HeadAndRest(g, n);
    }
    IdsPrefixStep(g, n);
    ReverseCons(key, tail);
  }

  /** A gallery in step with the store stays in step through a batch. */
  lemma {:induction false} BatchKeepsSync(s: Store, gallery: seq<Record>, files: seq<File>, attempts: seq<Attempt>)
    requires |attempts| == |files|
    ensures var run := Batch(s, gallery, files, attempts);
      InSync(gallery, s) ==> InSync(run.gallery, run.store)
    decreases |files|
  {
    if files != [] && !Extracted(attempts[0]).Pending? {
      var step := ProcessFile(s, gallery, files[0], attempts[0]);
      ProcessFileKeepsSync(s, gallery, files[0], attempts[0]);
      BatchKeepsSync(step.store, step.gallery, files[1..], attempts[1..]);
    }
  }

  /** The completion toast appears only for a finished batch of more than
      one file, and it reports the number of files selected, failures
      included, not the number saved. */
  lemma CompletionToastCountsSelection(fileCount: nat, stalled: bool, n: nat)
    ensures BatchAdded(n) in ClosingNotices(fileCount, stalled) <==> !stalled && fileCount > 1 && n == fileCount
  {
  }
}

=== FILE: offline_cache.dfy ===
/** The service worker's offline cache (`sw.js`), as transitions over an
    abstract CacheStorage. CacheStorage is the list of named caches in
    creation order (names distinct), because `caches.match` consults the
    caches in that order and answers from the first one holding the URL.
    Each cache maps a request URL to a stored response.

    The network is an input: a map from URL to the response the server
    would give; a URL outside the map fails to fetch (a network error).
    Platform rules modelled from the Service Workers specification:
    `cache.addAll` fetches every request and stores all of them or none,
    rejecting when a fetch fails, a status is not ok (200-299) or is 206;
    `cache.put` rejects a 206 response; `caches.open` creates the cache
    (empty, at the end of the list) when the name is new. */
module OfflineCache {
  import opened Util

  datatype Url = Url(origin: string, path: string)

  datatype Request = Request(httpMethod: string, url: Url)

  datatype Response = Response(status: nat, body: seq<bv8>)

  /** `response.ok`: the status is in the range 200-299. */
  predicate IsOk(r: Response)
  {
    200 <= r.status <= 299
  }

  const PartialContent: nat := 206

  type Cache = map<Url, Response>

  datatype NamedCache = NamedCache(name: string, cache: Cache)

  predicate DistinctNames(cs: seq<NamedCache>)
  {
    forall i, j :: 0 <= i < j < |cs| ==> cs[i].name != cs[j].name
  }

  type CacheStorage = cs: seq<NamedCache> | DistinctNames(cs) witness []

  type Network = map<Url, Response>

  // ---- Cache naming --------------------------------------------------------

  const CacheVersion: string := "v1"
  const CachePrefix: string := "video-lib-"

  /** `CACHE_NAME` for a given version token. */
  function CacheNameFor(version: string): (name: string)
    ensures |name| == |CachePrefix| + |version|
    ensures name[..|CachePrefix|] == CachePrefix && name[|CachePrefix|..] == version
  {
    CachePrefix + version
  }

  const CacheName: string := CacheNameFor(CacheVersion)

  /** Distinct version tokens give distinct generation names, so bumping
      the token is enough to make activation purge the previous generation. */
  lemma CacheNameInjective(v1: string, v2: string)
    requires v1 != v2
    ensures CacheNameFor(v1) != CacheNameFor(v2)
  {
    assert CacheNameFor(v1)[|CachePrefix|..] == v1;
  }

  lemma DeployedCacheName()
    ensures CacheName == "video-lib-v1"
  {
  }

  const AppShell: seq<string> := ["/", "/index.html", "/style.css", "/app.js", "/manifest.json"]

  // ---- CacheStorage primitives ----------------------------------------------

  function Names(cs: seq<NamedCache>): set<string>
  {
    set i | 0 <= i < |cs| :: cs[i].name
  }

  lemma NamesUncons(cs: seq<NamedCache>)
    requires cs != []
    ensures Names(cs) == {cs[0].name} + Names(cs[1..])
  {
    assert forall i :: 1 <= i < |cs| ==> cs[i] == cs[1..][i - 1];
  }

  /** The cache named `name`, if there is one. */
  function Lookup(cs: seq<NamedCache>, name: string): (r: Option<Cache>)
    ensures r.Some? <==> name in Names(cs)
  {
    if cs == [] then None
    else if cs[0].name == name then Some(cs[0].cache)
    else
      NamesUncons(cs);
      Lookup(cs[1..], name)
  }

  /** The `i`-th cache is the first one holding `url`. */
  predicate FirstHolder(cs: seq<NamedCache>, url: Url, i: int)
  {
    0 <= i < |cs| && url in cs[i].cache && forall j :: 0 <= j < i ==> url !in cs[j].cache
  }

  /** `caches.match(url)`: the response stored for `url` in the first cache that has one. */
  function Match(cs: seq<NamedCache>, url: Url): (r: Option<Response>)
    ensures r.None? <==> forall i :: 0 <= i < |cs| ==> url !in cs[i].cache
    ensures r.Some? ==> exists i :: FirstHolder(cs, url, i) && r.value == cs[i].cache[url]
  {
    if cs == [] then None
    else if url in cs[0].cache then Some(cs[0].cache[url])
    else
      assert forall i :: 1 <= i < |cs| ==> cs[i] == cs[1..][i - 1];
      Match(cs[1..], url)
  }

  /** Every cache of `cs` keeps its place in `r`; any cache `r` adds comes after them. */
  predicate KeepsOrder(cs: seq<NamedCache>, r: seq<NamedCache>)
  {
    |cs| <= |r| && forall i :: 0 <= i < |cs| ==> r[i].name == cs[i].name
  }

  /** `caches.open(name)`: create the cache, empty and last, if it is new. */
  function Open(cs: CacheStorage, name: string): (r: CacheStorage)
    ensures Names(r) == Names(cs) + {name}
    ensures Lookup(r, name) == (if name in Names(cs) then Lookup(cs, name) else Some(map[]))
    ensures forall n :: n != name ==> Lookup(r, n) == Lookup(cs, n)
  {
    if name in Names(cs) then cs
    else
      var r := cs + [NamedCache(name, map[])];
      assert forall i :: 0 <= i < |cs| ==> r[i] == cs[i];
      OpenAppendsLast(cs, name);
      r
  }

  /** Opening a cache keeps every existing cache where it was; a new one is
      appended last. */
  lemma OpenKeepsOrder(cs: CacheStorage, name: string)
    ensures cs <= Open(cs, name) && |Open(cs, name)| <= |cs| + 1
  {
  }

  /** Opening a cache never changes what a lookup answers: a new cache is
      empty and comes last, so every earlier holder still answers first. */
  lemma OpenKeepsMatch(cs: CacheStorage, name: string)
    ensures forall u :: Match(Open(cs, name), u) == Match(cs, u)
  {
    if name !in Names(cs) {
      OpenAppendsLast(cs, name);
    }
  }

  lemma {:induction false} OpenAppendsLast(cs: seq<NamedCache>, name: string)
    requires name !in Names(cs)
    ensures Names(cs + [NamedCache(name, map[])]) == Names(cs) + {name}
    ensures Lookup(cs + [NamedCache(name, map[])], name) == Some(map[])
    ensures forall n :: n != name ==> Lookup(cs + [NamedCache(name, map[])], n) == Lookup(cs, n)
    ensures forall u :: Match(cs + [NamedCache(name, map[])], u) == Match(cs, u)
  {
    var r := cs + [NamedCache(name, map[])];
    assert Names(r) == Names(cs) + {name} by {
      assert forall i :: 0 <= i < |cs| ==> r[i] == cs[i];
      assert r[|cs|].name == name;
    }
    if cs != [] {
      assert r[1..] == cs[1..] + [NamedCache(name, map[])];
      NamesUncons(cs);
      OpenAppendsLast(cs[1..], name);
    } else {
      assert r[1..] == [];
    }
  }

  /** Add `entries` to the cache named `name` (a `put` per entry), overwriting equal URLs. */
  function PutAll(cs: CacheStorage, name: string, entries: Cache): (r: CacheStorage)
    ensures Names(r) == Names(cs)
    ensures Lookup(cs, name).Some? ==> Lookup(r, name) == Some(Lookup(cs, name).value + entries)
    ensures forall n :: n != name ==> Lookup(r, n) == Lookup(cs, n)
  {
    var r := seq(|cs|, i requires 0 <= i < |cs| =>
      if cs[i].name == name then NamedCache(name, cs[i].cache + entries) else cs[i]);
    assert forall i :: 0 <= i < |cs| ==> r[i].name == cs[i].name;
    PutAllLookup(cs, r, name, entries);
    r
  }

  lemma {:induction false} PutAllLookup(cs: seq<NamedCache>, r: seq<NamedCache>, name: string, entries: Cache)
    requires |r| == |cs|
    requires forall i :: 0 <= i < |cs| ==> r[i] == (if cs[i].name == name then NamedCache(name, cs[i].cache + entries) else cs[i])
    ensures Names(r) == Names(cs)
    ensures Lookup(cs, name).Some? ==> Lookup(r, name) == Some(Lookup(cs, name).value + entries)
    ensures forall n :: n != name ==> Lookup(r, n) == Lookup(cs, n)
  {
    assert forall i :: 0 <= i < |cs| ==> r[i].name == cs[i].name;
    if cs != [] {
      PutAllLookup(cs[1..], r[1..], name, entries);
      NamesUncons(cs);
      NamesUncons(r);
    }
  }

  /** Adding entries to a cache moves no cache. */
  lemma PutAllKeepsOrder(cs: CacheStorage, name: string, entries: Cache)
    ensures |PutAll(cs, name, entries)| == |cs| && KeepsOrder(cs, PutAll(cs, name, entries))
  {
  }

  /** Adding `entries` to the cache named `name` changes no lookup of a URL
      outside `entries`; a URL that no cache held before is then answered
      with its new entry. */
  lemma PutAllMatch(cs: CacheStorage, name: string, entries: Cache)
    ensures forall u :: u !in entries ==> Match(PutAll(cs, name, entries), u) == Match(cs, u)
    ensures forall u :: u in entries && name in Names(cs) && Match(cs, u).None? ==>
      Match(PutAll(cs, name, entries), u) == Some(entries[u])
  {
    var r := PutAll(cs, name, entries);
    forall u | u !in entries
      ensures Match(r, u) == Match(cs, u)
    {
      PutAllMatchAt(cs, r, name, entries, u);
    }
    forall u | u in entries && name in Names(cs) && Match(cs, u).None?
      ensures Match(r, u) == Some(entries[u])
    {
      PutAllMatchAt(cs, r, name, entries, u);
    }
  }

  lemma {:induction false} PutAllMatchAt(cs: seq<NamedCache>, r: seq<NamedCache>, name: string, entries: Cache, u: Url)
    requires |r| == |cs|
    requires forall i :: 0 <= i < |cs| ==> r[i] == (if cs[i].name == name then NamedCache(name, cs[i].cache + entries) else cs[i])
    ensures u !in entries ==> Match(r, u) == Match(cs, u)
    ensures u in entries && name in Names(cs) && Match(cs, u).None? ==> Match(r, u) == Some(entries[u])
  {
    if cs != [] {
      NamesUncons(cs);
      PutAllMatchAt(cs[1..], r[1..], name, entries, u);
    }
  }

  lemma {:induction false} PutAllKeepsEarlierHolder(cs: seq<NamedCache>, r: seq<NamedCache>, name: string, entries: Cache, u: Url, i: nat)
    requires |r| == |cs|
    requires forall k :: 0 <= k < |cs| ==> r[k] == (if cs[k].name == name then NamedCache(name, cs[k].cache + entries) else cs[k])
    requires FirstHolder(cs, u, i) && forall j :: 0 <= j <= i ==> cs[j].name != name
    ensures Match(r, u) == Match(cs, u)
  {
    if i > 0 {
      assert FirstHolder(cs[1..], u, i - 1);
      PutAllKeepsEarlierHolder(cs[1..], r[1..], name, entries, u, i - 1);
    }
  }

  /** `caches.keys()` then `caches.delete(k)` for every `k` other than `keep`. */
  function KeepOnly(cs: CacheStorage, keep: string): (r: CacheStorage)
    ensures forall i :: 0 <= i < |r| ==> r[i].name == keep
    ensures Names(r) <= {keep} && Names(r) <= Names(cs)
    ensures Lookup(r, keep) == Lookup(cs, keep)
    ensures forall u :: Match(r, u) == (if Lookup(cs, keep).Some? && u in Lookup(cs, keep).value then Some(Lookup(cs, keep).value[u]) else None)
  {
    if cs == [] then []
    else
      var rest := KeepOnly(cs[1..], keep);
      NamesUncons(cs);
      if cs[0].name == keep then
        assert keep !in Names(cs[1..]) by {
          assert forall i :: 1 <= i < |cs| ==> cs[1..][i - 1].name == cs[i].name;
        }
        var r := [cs[0]] + rest;
        NamesUncons(r);
        assert r[1..] == rest;
        r
      else
        rest
  }

  /** Keeping only `keep` in storage that holds nothing else changes nothing. */
  lemma {:induction false} KeepOnlyAllKept(cs: CacheStorage, keep: string)
    requires forall i :: 0 <= i < |cs| ==> cs[i].name == keep
    ensures KeepOnly(cs, keep) == cs
  {
    if cs != [] {
      KeepOnlyAllKept(cs[1..], keep);
    }
  }

  // ---- Handlers ---------------------------------------------------------------

  datatype InstallOutcome = Installed | InstallFailed

  /** The URLs of the app shell on the worker's origin. */
  function ShellUrls(origin: string): set<Url>
  {
    set p | p in AppShell :: Url(origin, p)
  }

  /** The entries `cache.addAll(APP_SHELL)` stores: each shell URL with the network's answer. */
  function ShellEntries(origin: string, net: Network): Cache
  {
    map u | u in ShellUrls(origin) && u in net :: net[u]
  }

  /** Whether `cache.addAll` accepts the network's answer for `u`. */
  predicate Storable(net: Network, u: Url)
  {
    u in net && IsOk(net[u]) && net[u].status != PartialContent
  }

  /** The `install` handler of the worker built with token `version`:
      open the generation's cache and `addAll` the app shell. */
  function Install(version: string, cs: CacheStorage, origin: string, net: Network): (r: (InstallOutcome, CacheStorage))
    ensures Names(r.1) == Names(cs) + {CacheNameFor(version)}
    ensures forall n :: n != CacheNameFor(version) ==> Lookup(r.1, n) == Lookup(cs, n)
    ensures r.0 == Installed <==> forall p :: p in AppShell ==> Storable(net, Url(origin, p))
    ensures r.0 == Installed ==>
      && Lookup(r.1, CacheNameFor(version)).Some?
      && forall p :: p in AppShell ==>
           Url(origin, p) in Lookup(r.1, CacheNameFor(version)).value
           && Lookup(r.1, CacheNameFor(version)).value[Url(origin, p)] == net[Url(origin, p)]
    ensures r.0 == Installed ==>
      var before := Lookup(cs, CacheNameFor(version));
      Lookup(r.1, CacheNameFor(version)) ==
        Some((if before.Some? then before.value else map[]) + ShellEntries(origin, net))
    ensures r.0 == InstallFailed ==> forall u :: Match(r.1, u) == Match(cs, u)
    ensures r.0 == InstallFailed ==>
      Lookup(r.1, CacheNameFor(version)) ==
        if CacheNameFor(version) in Names(cs) then Lookup(cs, CacheNameFor(version)) else Some(map[])
    ensures forall u :: u !in ShellUrls(origin) ==> Match(r.1, u) == Match(cs, u)
    ensures KeepsOrder(cs, r.1) && |r.1| <= |cs| + 1
  {
    var name := CacheNameFor(version);
    var created := Open(cs, name);
    OpenKeepsMatch(cs, name);
    OpenKeepsOrder(cs, name);
    if forall p :: p in AppShell ==> Storable(net, Url(origin, p)) then
      var entries := ShellEntries(origin, net);
      var r := PutAll(created, name, entries);
      PutAllMatch(created, name, entries);
      PutAllKeepsOrder(created, name, entries);
      assert forall p :: p in AppShell ==> Url(origin, p) in ShellUrls(origin);
      (Installed, r)
    else
      (InstallFailed, created)
  }

  /** Storing into a cache that was just created, last, changes no answer
      for a URL an older cache already holds. */
  lemma PutAllNewKeepsHolder(cs: CacheStorage, name: string, entries: Cache, u: Url)
    requires name !in Names(cs)
    ensures Match(cs, u).Some? ==> Match(PutAll(Open(cs, name), name, entries), u) == Match(cs, u)
  {
    if Match(cs, u).Some? {
      var created := Open(cs, name);
      OpenKeepsMatch(cs, name);
      var i :| FirstHolder(cs, u, i);
      assert created == cs + [NamedCache(name, map[])];
      HolderBeforeNew(cs, name, u, i);
      PutAllKeepsEarlierHolder(created, PutAll(created, name, entries), name, entries, u, i);
    }
  }

  lemma HolderBeforeNew(cs: seq<NamedCache>, name: string, u: Url, i: int)
    requires name !in Names(cs) && FirstHolder(cs, u, i)
    ensures FirstHolder(cs + [NamedCache(name, map[])], u, i)
    ensures forall j :: 0 <= j <= i ==> (cs + [NamedCache(name, map[])])[j].name != name
  {
    var created := cs + [NamedCache(name, map[])];
    forall j | 0 <= j <= i
      ensures created[j].name != name
    {
      assert created[j].name in Names(cs);
    }
  }

  /** Installing a new generation changes no answer for a URL an older
      generation already holds: the new cache comes last, so until
      activation pages keep getting the older response. */
  lemma InstallKeepsOlderAnswers(version: string, cs: CacheStorage, origin: string, net: Network, u: Url)
    requires CacheNameFor(version) !in Names(cs)
    ensures Match(cs, u).Some? ==> Match(Install(version, cs, origin, net).1, u) == Match(cs, u)
  {
    if forall p :: p in AppShell ==> Storable(net, Url(origin, p)) {
      PutAllNewKeepsHolder(cs, CacheNameFor(version), ShellEntries(origin, net), u);
    }
  }

  /** After installing and activating, a URL outside the app shell is
      answered only from what the current generation held before the
      install: an asset cached solely by an older generation misses. */
  lemma NonShellAfterActivation(version: string, cs: CacheStorage, origin: string, net: Network, u: Url)
    requires u !in ShellUrls(origin)
    ensures
      var before := Lookup(cs, CacheNameFor(version));
      Match(Activate(version, Install(version, cs, origin, net).1), u) ==
        if before.Some? && u in before.value then Some(before.value[u]) else None
  {
    var installed := Install(version, cs, origin, net).1;
    ActivatedMatchesCurrentOnly(version, installed, u);
    var entries := ShellEntries(origin, net);
    assert u !in entries;
  }

  /** The `activate` handler of the worker built with token `version`. */
  function Activate(version: string, cs: CacheStorage): (r: CacheStorage)
    ensures Names(r) <= {CacheNameFor(version)}
    ensures Lookup(r, CacheNameFor(version)) == Lookup(cs, CacheNameFor(version))
  {
    KeepOnly(cs, CacheNameFor(version))
  }

  /** Activating again changes nothing. */
  lemma ActivateIdempotent(version: string, cs: CacheStorage)
    ensures Activate(version, Activate(version, cs)) == Activate(version, cs)
  {
    KeepOnlyAllKept(Activate(version, cs), CacheNameFor(version));
  }

  /** After activation only the current generation answers lookups: a URL
      cached solely in an older generation is now a miss. */
  lemma ActivatedMatchesCurrentOnly(version: string, cs: CacheStorage, u: Url)
    ensures
      var current := Lookup(cs, CacheNameFor(version));
      Match(Activate(version, cs), u) ==
        if current.Some? && u in current.value then Some(current.value[u]) else None
  {
  }

  datatype Reply = PassThrough | Respond(response: Response) | NetworkError

  /** Whether the `fetch` handler calls `respondWith`: same-origin GET only. */
  predicate Intercepts(req: Request, origin: string)
  {
    req.httpMethod == "GET" && req.url.origin == origin
  }

  /** The `fetch` handler of the worker built with token `version`, on the
      worker's origin `origin`. On a miss the network's response is returned
      as is; an ok one other than 206 is then written into the generation's
      cache, so the URL is a hit from then on, and no other URL's lookup
      changes. */
  function HandleFetch(version: string, cs: CacheStorage, origin: string, req: Request, net: Network): (r: (Reply, CacheStorage))
    ensures !Intercepts(req, origin) ==> r == (PassThrough, cs)
    ensures Intercepts(req, origin) && Match(cs, req.url).Some? ==> r == (Respond(Match(cs, req.url).value), cs)
    ensures Intercepts(req, origin) && Match(cs, req.url).None? ==>
      && (req.url !in net ==> r == (NetworkError, cs))
      && (req.url in net ==> r.0 == Respond(net[req.url]))
      && (req.url in net && !IsOk(net[req.url]) ==> r.1 == cs)
      && (req.url in net && net[req.url].status == PartialContent ==>
            var before := Lookup(cs, CacheNameFor(version));
            Lookup(r.1, CacheNameFor(version)) == if before.Some? then before else Some(map[]))
      && (forall n :: n != CacheNameFor(version) ==> Lookup(r.1, n) == Lookup(cs, n))
      && (req.url in net && IsOk(net[req.url]) && net[req.url].status != PartialContent ==>
            var before := Lookup(cs, CacheNameFor(version));
            Lookup(r.1, CacheNameFor(version)) ==
              Some((if before.Some? then before.value else map[])[req.url := net[req.url]]))
    ensures Intercepts(req, origin) && Match(cs, req.url).None? ==>
      forall u :: u != req.url ==> Match(r.1, u) == Match(cs, u)
    ensures Intercepts(req, origin) && Match(cs, req.url).None? && req.url in net ==>
      Match(r.1, req.url) == if Storable(net, req.url) then Some(net[req.url]) else None
    ensures KeepsOrder(cs, r.1) && |r.1| <= |cs| + 1
  {
    if !Intercepts(req, origin) then (PassThrough, cs)
    else match Match(cs, req.url)
      case Some(cached) => (Respond(cached), cs)
      case None =>
        if req.url !in net then (NetworkError, cs)
        else
          var response := net[req.url];
          if !IsOk(response) then (Respond(response), cs)
          else
            var name := CacheNameFor(version);
            var created := Open(cs, name);
            OpenKeepsMatch(cs, name);
            OpenKeepsOrder(cs, name);
            if response.status == PartialContent then (Respond(response), created)
            else
              var base := Lookup(created, name).value;
              assert base + map[req.url := response] == base[req.url := response];
              PutAllMatch(created, name, map[req.url := response]);
              PutAllKeepsOrder(created, name, map[req.url := response]);
              (Respond(response), PutAll(created, name, map[req.url := response]))
  }

  /** When every shell path fetched a storable response at install time, a
      shell request after install and activation is answered from the new
      generation with that response, without consulting the network. */
  lemma ShellServedOffline(version: string, cs: CacheStorage, origin: string, installNet: Network, p: string, laterNet: Network)
    requires forall q :: q in AppShell ==> Storable(installNet, Url(origin, q))
    requires p in AppShell
    ensures
      var active := Activate(version, Install(version, cs, origin, installNet).1);
      HandleFetch(version, active, origin, Request("GET", Url(origin, p)), laterNet)
        == (Respond(installNet[Url(origin, p)]), active)
  {
    var installed := Install(version, cs, origin, installNet).1;
    ActivatedMatchesCurrentOnly(version, installed, Url(origin, p));
  }
}

=== FILE: player.dfy ===
/** The playback overlay's object-URL slot (`currentObjectURL`). Opening a
    record for playback revokes the URL held in the slot, if any, before
    creating a fresh one for the record's blob; closing revokes it and
    empties the slot. Object URLs are fresh serial numbers bound to a blob.
    The state keeps the log of `createObjectURL`/`revokeObjectURL` calls for
    playback URLs, so the order of the two calls inside `openPlayer` is part
    of what is proved. */
module Player {
  import opened Util
  import opened RecordStore

  datatype ObjectUrl = ObjectUrl(serial: nat, blob: File)

  /** One `URL.createObjectURL` or `URL.revokeObjectURL` call for a playback URL. */
  datatype UrlCall = Created(url: ObjectUrl) | Revoked(url: ObjectUrl)

  /** The playback URLs created and not yet revoked after `calls`. */
  function LiveAfter(calls: seq<UrlCall>): set<ObjectUrl>
  {
    if calls == [] then {}
    else
      var n := |calls| - 1;
      match calls[n]
      case Created(u) => LiveAfter(calls[..n]) + {u}
      case Revoked(u) => LiveAfter(calls[..n]) - {u}
  }

  /** At no moment during `calls` were two playback URLs live at once. */
  predicate NeverTwoLive(calls: seq<UrlCall>)
  {
    forall k :: 0 <= k <= |calls| ==> |LiveAfter(calls[..k])| <= 1
  }

  datatype PlayerState = PlayerState(
    slot: Option<ObjectUrl>,
    calls: seq<UrlCall>,
    minted: nat,
    visible: bool)

  /** The playback URLs currently live. */
  function Live(p: PlayerState): set<ObjectUrl>
  {
    LiveAfter(p.calls)
  }

  /** The single-slot discipline: the only live playback URL is the one in
      the slot, every URL was minted before, the overlay is shown exactly
      while the slot holds a URL, and no two URLs were ever live together. */
  predicate SingleSlot(p: PlayerState)
  {
    && Live(p) == (if p.slot.Some? then {p.slot.value} else {})
    && (forall u :: u in Live(p) ==> u.serial < p.minted)
    && (p.visible <==> p.slot.Some?)
    && NeverTwoLive(p.calls)
  }

  /** The state at page load: nothing playing, overlay hidden, no calls made. */
  const Closed: PlayerState := PlayerState(None, [], 0, false)

  /** Give up the slot: when it holds a URL, revoke that URL and empty the slot. */
  function Release(p: PlayerState): PlayerState
  {
    if p.slot.Some? then p.(slot := None, calls := p.calls + [Revoked(p.slot.value)]) else p
  }

  lemma {:induction false} LiveAfterSnoc(calls: seq<UrlCall>, c: UrlCall)
    ensures LiveAfter(calls + [c]) == if c.Created? then LiveAfter(calls) + {c.url} else LiveAfter(calls) - {c.url}
  {
    assert (calls + [c])[..|calls|] == calls;
  }

  lemma {:induction false} NeverTwoLiveSnoc(calls: seq<UrlCall>, c: UrlCall)
    requires NeverTwoLive(calls)
    requires |LiveAfter(calls + [c])| <= 1
    ensures NeverTwoLive(calls + [c])
  {
    var s := calls + [c];
    forall k | 0 <= k <= |s|
      ensures |LiveAfter(s[..k])| <= 1
    {
      if k <= |calls| {
        assert s[..k] == calls[..k];
      } else {
        assert s[..k] == s;
      }
    }
  }

  lemma ReleaseRevokesSlot(p: PlayerState)
    ensures |Release(p).calls| >= |p.calls| && Release(p).calls[..|p.calls|] == p.calls
    ensures Live(Release(p)) == if p.slot.Some? then Live(p) - {p.slot.value} else Live(p)
    ensures SingleSlot(p) ==> Live(Release(p)) == {} && NeverTwoLive(Release(p).calls)
  {
    assert Release(p).calls[..|p.calls|] == p.calls;
    if p.slot.Some? {
      LiveAfterSnoc(p.calls, Revoked(p.slot.value));
      if SingleSlot(p) {
        NeverTwoLiveSnoc(p.calls, Revoked(p.slot.value));
      }
    }
  }

  /** `openPlayer(record)`. */
  function OpenPlayer(p: PlayerState, record: Record): (r: PlayerState)
    ensures r.slot.Some? && r.slot.value.blob == record.blob
    ensures r.slot.value.serial >= p.minted
    ensures r.minted > p.minted
    ensures r.visible
    ensures |r.calls| > |p.calls| && r.calls[..|p.calls|] == p.calls
    ensures r.calls[|r.calls| - 1] == Created(r.slot.value)
    ensures SingleSlot(p) ==> LiveAfter(r.calls[..|r.calls| - 1]) == {}
    ensures SingleSlot(p) && p.slot.Some? ==> p.slot.value !in Live(r)
    ensures SingleSlot(p) ==> SingleSlot(r) && Live(r) == {r.slot.value}
  {
    var released := Release(p);
    var url := ObjectUrl(p.minted, record.blob);
    var r := PlayerState(Some(url), released.calls + [Created(url)], p.minted + 1, true);
    assert r.calls[..|r.calls| - 1] == released.calls;
    assert r.calls[..|p.calls|] == p.calls;
    ReleaseRevokesSlot(p);
    LiveAfterSnoc(released.calls, Created(url));
    if SingleSlot(p) then NeverTwoLiveSnoc(released.calls, Created(url)); r else r
  }

  /** `closePlayer()`. */
  function ClosePlayer(p: PlayerState): (r: PlayerState)
    ensures r.slot.None? && !r.visible
    ensures p.slot.Some? ==> p.slot.value !in Live(r)
    ensures r.minted == p.minted
    ensures |r.calls| >= |p.calls| && r.calls[..|p.calls|] == p.calls
    ensures SingleSlot(p) ==> SingleSlot(r) && Live(r) == {}
  {
    ReleaseRevokesSlot(p);
    Release(p).(visible := false)
  }

  /** Closing twice is the same as closing once. */
  lemma CloseIdempotent(p: PlayerState)
    ensures ClosePlayer(ClosePlayer(p)) == ClosePlayer(p)
  {
  }

  datatype PlayerOp = Open(record: Record) | Close

  function Apply(p: PlayerState, op: PlayerOp): PlayerState
  {
    match op
    case Open(record) => OpenPlayer(p, record)
    case Close => ClosePlayer(p)
  }

  function Session(p: PlayerState, ops: seq<PlayerOp>): PlayerState
    decreases |ops|
  {
    if ops == [] then p else Session(Apply(p, ops[0]), ops[1..])
  }

  /** However the user opens and closes videos from page load on, at most
      one playback object URL is live, and it is the one in the slot; at no
      moment, not even between the two calls inside `openPlayer`, were two
      playback URLs live together. */
  lemma {:induction false} AtMostOneLiveUrl(ops: seq<PlayerOp>)
    ensures SingleSlot(Session(Closed, ops))
    ensures |Live(Session(Closed, ops))| <= 1
    ensures NeverTwoLive(Session(Closed, ops).calls)
  {
    assert NeverTwoLive(Closed.calls) by {
      assert forall k :: 0 <= k <= 0 ==> Closed.calls[..k] == [];
    }
    SessionKeepsSingleSlot(Closed, ops);
  }

  lemma {:induction false} SessionKeepsSingleSlot(p: PlayerState, ops: seq<PlayerOp>)
    requires SingleSlot(p)
    ensures SingleSlot(Session(p, ops))
    ensures |Live(Session(p, ops))| <= 1
    decreases |ops|
  {
    if ops != [] {
      SessionKeepsSingleSlot(Apply(p, ops[0]), ops[1..]);
    } else if p.slot.Some? {
      assert Live(p) == {p.slot.value};
    }
  }
}

=== FILE: record_store.dfy ===
/** The `videos` object store of the `video-library` database: a table keyed
    by an auto-incremented `id` (key path `id`, key generator on). Records are
    added, listed in key order and deleted; there is no update.

    Key generation follows section 2.11 of the W3C Indexed Database API 3.0:
    the generator's current number starts at 1, each generated key is the
    current number, which then grows by one, and generation fails once the
    current number exceeds 2^53. A failed or aborted add is rolled back
    together with the generator's increment, so the store is unchanged. */
module RecordStore {
  import opened Util

  type Byte = bv8

  /** A user-selected file: name, declared media type and content. */
  datatype File = File(name: string, mimeType: string, data: seq<Byte>)

  /** Byte length of a file (`file.size`). */
  function SizeOf(f: File): nat
  {
    |f.data|
  }

  /** A persisted video record: metadata, thumbnail data URL and the original file. */
  datatype Record = Record(
    id: nat,
    name: string,
    size: nat,
    mimeType: string,
    createdAt: int,
    thumbnail: string,
    blob: File)

  const FirstKey: nat := 1
  /** 2^53: the largest key the generator hands out. */
  const MaxGeneratedKey: nat := 0x20_0000_0000_0000

  datatype StoreState = StoreState(records: map<nat, Record>, next: nat)

  /** Every stored key was generated (1 <= key < current number) and is the record's own `id`. */
  predicate Valid(s: StoreState)
  {
    && FirstKey <= s.next
    && forall k :: k in s.records ==> FirstKey <= k < s.next && s.records[k].id == k
  }

  type Store = s: StoreState | Valid(s) witness StoreState(map[], FirstKey)

  /** The store as created by the upgrade callback of a fresh database. */
  const Empty: Store := StoreState(map[], FirstKey)

  datatype StoreError = KeyGeneratorExhausted | TransactionAborted

  /** The database as found at open time: the `videos` store, if it was created before. */
  function Upgrade(existing: Option<Store>): (s: Store)
    ensures existing.Some? ==> s == existing.value
    ensures existing.None? ==> s.records == map[] && s.next == FirstKey
  {
    match existing
    case Some(store) => store
    case None => Empty
  }

  /** The record `saveVideo` writes for `file` under key `id`. */
  function NewRecord(id: nat, file: File, thumbnail: string, now: int): Record
  {
    Record(id, file.name, SizeOf(file), file.mimeType, now, thumbnail, file)
  }

  /** `saveVideo`: add a record for `file` with the given thumbnail, stamped
      with clock reading `now`; `commits` says whether the write transaction
      commits (it may abort, e.g. on quota). Returns the generated key. */
  function SaveVideo(s: Store, file: File, thumbnail: string, now: int, commits: bool): (r: Result<(nat, Store), StoreError>)
    ensures r.Ok? ==>
      var (key, s') := r.value;
      && key !in s.records
      && (forall k :: k in s.records ==> k < key)
      && s'.records.Keys == s.records.Keys + {key}
      && s'.records[key].name == file.name
      && s'.records[key].size == |file.data|
      && s'.records[key].mimeType == file.mimeType
      && s'.records[key].createdAt == now
      && s'.records[key].thumbnail == thumbnail
      && s'.records[key].blob == file
      && (forall k :: k in s.records ==> s'.records[k] == s.records[k])
      && key == s.next && s'.next == s.next + 1
    ensures r.Ok? <==> commits && s.next <= MaxGeneratedKey
    ensures r == Err(KeyGeneratorExhausted) <==> s.next > MaxGeneratedKey
  {
    if s.next > MaxGeneratedKey then Err(KeyGeneratorExhausted)
    else if !commits then Err(TransactionAborted)
    else
      var key := s.next;
      Ok((key, StoreState(s.records[key := NewRecord(key, file, thumbnail, now)], key + 1)))
  }

  /** Ids of a listing, in listing order. */
  function Ids(rs: seq<Record>): (ids: seq<nat>)
    ensures |ids| == |rs|
    ensures forall i :: 0 <= i < |rs| ==> ids[i] == rs[i].id
  {
    seq(|rs|, i requires 0 <= i < |rs| => rs[i].id)
  }

  lemma IdsSnoc(rs: seq<Record>, x: Record)
    ensures Ids(rs + [x]) == Ids(rs) + [x.id]
  {
  }

  /** Extending a prefix of a listing by one record extends its ids by that record's id. */
  lemma IdsPrefixStep(rs: seq<Record>, n: nat)
    requires n < |rs|
    ensures Ids(rs[..n + 1]) == Ids(rs[..n]) + [rs[n].id]
  {
    assert rs[..n + 1] == rs[..n] + [rs[n]];
    IdsSnoc(rs[..n], rs[n]);
  }

  /** The records of `m` whose key is below `n`, in ascending key order. */
  function RecordsBelow(m: map<nat, Record>, n: nat): (r: seq<Record>)
    requires forall k :: k in m ==> m[k].id == k
    ensures forall i :: 0 <= i < |r| ==> r[i].id < n && r[i].id in m && m[r[i].id] == r[i]
    ensures forall i, j :: 0 <= i < j < |r| ==> r[i].id < r[j].id
    ensures forall k :: k in m && k < n ==> k in Ids(r)
  {
    if n == 0 then []
    else
      var prev := RecordsBelow(m, n - 1);
      if n - 1 in m then
        assert Ids(prev + [m[n - 1]]) == Ids(prev) + [n - 1];
        prev + [m[n - 1]]
      else prev
  }

  /** `loadAllVideos`: every record, in ascending key order (creation order). */
  function LoadAllVideos(s: Store): (r: seq<Record>)
    ensures Ascending(Ids(r))
    ensures forall k :: k in s.records <==> k in Ids(r)
    ensures forall i :: 0 <= i < |r| ==> r[i].id in s.records && s.records[r[i].id] == r[i]
  {
    var r := RecordsBelow(s.records, s.next);
    assert forall k :: k in Ids(r) ==> k in s.records by {
      forall k | k in Ids(r) ensures k in s.records {
        var i :| 0 <= i < |r| && Ids(r)[i] == k;
      }
    }
    r
  }

  /** `deleteVideo`: remove the record under `id`, if any. */
  function DeleteVideo(s: Store, id: nat): (r: Store)
    ensures r.records.Keys == s.records.Keys - {id}
    ensures forall k :: k in r.records ==> r.records[k] == s.records[k]
    ensures r.next == s.next
    ensures id !in s.records ==> r == s
  {
    StoreState(s.records - {id}, s.next)
  }

  /** The listing without the record whose id is `id`. */
  function Without(rs: seq<Record>, id: nat): seq<Record>
  {
    if rs == [] then []
    else (if rs[0].id == id then [] else [rs[0]]) + Without(rs[1..], id)
  }

  lemma {:induction false} WithoutMembers(rs: seq<Record>, id: nat)
    ensures forall x :: x in Without(rs, id) <==> x in rs && x.id != id
  {
    if rs != [] {
      WithoutMembers(rs[1..], id);
      assert rs == [rs[0]] + rs[1..];
    }
  }

  lemma {:induction false} WithoutAppend(a: seq<Record>, b: seq<Record>, id: nat)
    ensures Without(a + b, id) == Without(a, id) + Without(b, id)
  {
    if a == [] {
      assert a + b == b;
    } else {
      var head := if a[0].id == id then [] else [a[0]];
      assert (a + b)[0] == a[0];
      assert (a + b)[1..] == a[1..] + b;
      WithoutAppend(a[1..], b, id);
      calc {
        Without(a + b, id);
        head + Without(a[1..] + b, id);
        head + (Without(a[1..], id) + Without(b, id));
        (head + Without(a[1..], id)) + Without(b, id);
      }
    }
  }

  /** Adding the key `key` to the map does not change the records below it. */
  lemma {:induction false} RecordsBelowUpdate(m: map<nat, Record>, key: nat, rec: Record, n: nat)
    requires forall k :: k in m ==> m[k].id == k
    requires rec.id == key && n <= key
    ensures RecordsBelow(m[key := rec], n) == RecordsBelow(m, n)
  {
    if n > 0 {
      RecordsBelowUpdate(m, key, rec, n - 1);
    }
  }

  /** A successful save appends exactly the new record to the listing. */
  lemma SaveAppendsToListing(s: Store, file: File, thumbnail: string, now: int, commits: bool)
    requires SaveVideo(s, file, thumbnail, now, commits).Ok?
    ensures
      var (key, s') := SaveVideo(s, file, thumbnail, now, commits).value;
      LoadAllVideos(s') == LoadAllVideos(s) + [NewRecord(key, file, thumbnail, now)]
  {
    var key := s.next;
    var rec := NewRecord(key, file, thumbnail, now);
    RecordsBelowUpdate(s.records, key, rec, key);
  }

  lemma RecordsBelowStep(m: map<nat, Record>, n: nat)
    requires forall k :: k in m ==> m[k].id == k
    ensures RecordsBelow(m, n + 1) == RecordsBelow(m, n) + (if n in m then [m[n]] else [])
  {
  }

  lemma {:induction false} RecordsBelowRemove(m: map<nat, Record>, id: nat, n: nat)
    requires forall k :: k in m ==> m[k].id == k
    ensures RecordsBelow(m - {id}, n) == Without(RecordsBelow(m, n), id)
  {
    if n > 0 {
      var m' := m - {id};
      var p := n - 1;
      RecordsBelowRemove(m, id, p);
      RecordsBelowStep(m, p);
      RecordsBelowStep(m', p);
      var prev := RecordsBelow(m, p);
      var tail := if p in m then [m[p]] else [];
      WithoutAppend(prev, tail, id);
      assert Without(tail, id) == (if p in m' then [m'[p]] else []) by {
        if p in m {
          assert Without(tail, id) == (if m[p].id == id then [] else [m[p]]) + Without([], id);
        }
      }
    }
  }

  /** Deleting `id` removes exactly that record from the listing, keeping the order of the rest. */
  lemma DeleteFiltersListing(s: Store, id: nat)
    ensures LoadAllVideos(DeleteVideo(s, id)) == Without(LoadAllVideos(s), id)
  {
    RecordsBelowRemove(s.records, id, s.next);
  }

  /** A store operation with its environment inputs, for replaying histories. */
  datatype StoreOp =
    | Save(file: File, thumbnail: string, now: int, commits: bool)
    | Delete(id: nat)

  /** Run `ops` from `s`; returns the final store and the keys handed out, in order. */
  function Replay(s: Store, ops: seq<StoreOp>): (Store, seq<nat>)
    decreases |ops|
  {
    if ops == [] then (s, [])
    else
      var (s1, issued) :=
        match ops[0]
        case Delete(id) => (DeleteVideo(s, id), [])
        case Save(f, t, now, c) =>
          match SaveVideo(s, f, t, now, c)
          case Ok((key, s')) => (s', [key])
          case Err(_) => (s, []);
      var (sEnd, rest) := Replay(s1, ops[1..]);
      (sEnd, issued + rest)
  }

  /** Replaying never moves the key generator backwards. */
  lemma {:induction false} ReplayGeneratorMonotone(s: Store, ops: seq<StoreOp>)
    ensures s.next <= Replay(s, ops).0.next
    decreases |ops|
  {
    if ops != [] {
      var s1 := match ops[0]
        case Delete(id) => DeleteVideo(s, id)
        case Save(f, t, now, c) =>
          match SaveVideo(s, f, t, now, c)
          case Ok((key, s')) => s'
          case Err(_) => s;
      ReplayGeneratorMonotone(s1, ops[1..]);
    }
  }

  /** Keys are never reused: over any history of saves and deletes the keys
      handed out strictly increase, none was ever a key before the history
      began, and all lie below the final generator value. */
  lemma {:induction false} KeysNeverReused(s: Store, ops: seq<StoreOp>)
    ensures
      var (sEnd, issued) := Replay(s, ops);
      && Ascending(issued)
      && (forall i :: 0 <= i < |issued| ==> s.next <= issued[i] < sEnd.next)
    decreases |ops|
  {
    if ops != [] {
      var (s1, first) :=
        match ops[0]
        case Delete(id) => (DeleteVideo(s, id), [])
        case Save(f, t, now, c) =>
          match SaveVideo(s, f, t, now, c)
          case Ok((key, s')) => (s', [key])
          case Err(_) => (s, []);
      KeysNeverReused(s1, ops[1..]);
      ReplayGeneratorMonotone(s1, ops[1..]);
      var (sEnd, rest) := Replay(s1, ops[1..]);
      assert Replay(s, ops) == (sEnd, first + rest);
      assert forall i :: 0 <= i < |first| ==> s.next <= first[i] < s1.next;
      assert s.next <= s1.next;
    }
  }
}

=== FILE: thumbnail.dfy ===
/** `generateThumbnail`: extract the last frame of a video file as a JPEG
    data URL. The browser's media element is replaced by the sequence of
    events it delivers to the three listeners (`error`, `loadedmetadata`,
    `seeked`); drawing and encoding the frame is an oracle carried by the
    `seeked` event that either yields a data URL or throws.

    The extraction is a fold of the listeners over the events. It records
    the observable effects: the temporary object URL is created first, each
    settle call is made right after `cleanup` revokes that URL, and only the
    first settle decides the promise (later resolve/reject calls are no-ops,
    but their listeners still run). */
module Thumbnail {

  const FallbackWidth: nat := 640
  const FallbackHeight: nat := 360
  const LoadErrorMessage: string := "動画の読み込みに失敗しました"

  /** Canvas width: the video's natural width, or 640 when that is 0 (`videoWidth || 640`). */
  function CanvasWidth(videoWidth: nat): (w: nat)
    ensures w > 0
    ensures videoWidth != 0 ==> w == videoWidth
    ensures videoWidth == 0 ==> w == FallbackWidth
  {
    if videoWidth != 0 then videoWidth else FallbackWidth
  }

  /** Canvas height: the video's natural height, or 360 when that is 0 (`videoHeight || 360`). */
  function CanvasHeight(videoHeight: nat): (h: nat)
    ensures h > 0
    ensures videoHeight != 0 ==> h == videoHeight
    ensures videoHeight == 0 ==> h == FallbackHeight
  {
    if videoHeight != 0 then videoHeight else FallbackHeight
  }

  /** What drawing the frame and `canvas.toDataURL('image/jpeg', 0.82)` did. */
  datatype Capture = Encoded(dataUrl: string) | Threw(reason: string)

  /** An event the media element fires at the listeners. */
  datatype MediaEvent =
    | LoadError
    | LoadedMetadata
    | Seeked(videoWidth: nat, videoHeight: nat, frame: Capture)

  /** The state of the returned promise. */
  datatype Settlement = Pending | Resolved(dataUrl: string) | Rejected(reason: string)

  /** An observable effect of the extraction. */
  datatype Effect =
    | CreateUrl
    | SeekNearEnd
    | SizeCanvas(width: nat, height: nat)
    | Revoke
    | Settle(outcome: Settlement)

  datatype Extraction = Extraction(effects: seq<Effect>, result: Settlement)

  /** `cleanup(); resolve(..)` or `cleanup(); reject(..)`: only a pending promise adopts `s`. */
  function CleanupAndSettle(x: Extraction, s: Settlement): Extraction
  {
    Extraction(x.effects + [Revoke, Settle(s)], if x.result.Pending? then s else x.result)
  }

  /** Run the listener registered for `e`. */
  function Dispatch(x: Extraction, e: MediaEvent): Extraction
  {
    match e
    case LoadError => CleanupAndSettle(x, Rejected(LoadErrorMessage))
    case LoadedMetadata => Extraction(x.effects + [SeekNearEnd], x.result)
    case Seeked(w, h, frame) =>
      var sized := Extraction(x.effects + [SizeCanvas(CanvasWidth(w), CanvasHeight(h))], x.result);
      match frame
      case Encoded(d) => CleanupAndSettle(sized, Resolved(d))
      case Threw(reason) => CleanupAndSettle(sized, Rejected(reason))
  }

  /** Every settle call comes straight after a revoke of the temporary URL. */
  predicate CleanupPrecedesSettle(effects: seq<Effect>)
  {
    forall i :: 0 <= i < |effects| && effects[i].Settle? ==> 0 < i && effects[i - 1] == Revoke
  }

  /** How a single event would settle a still-pending promise. */
  function SettlementOf(e: MediaEvent): Settlement
  {
    match e
    case LoadError => Rejected(LoadErrorMessage)
    case LoadedMetadata => Pending
    case Seeked(_, _, Encoded(d)) => Resolved(d)
    case Seeked(_, _, Threw(reason)) => Rejected(reason)
  }

  /** Reference definition: the promise takes the settlement of the first event that settles it. */
  function FirstSettlement(events: seq<MediaEvent>): Settlement
  {
    if events == [] then Pending
    else if SettlementOf(events[0]).Pending? then FirstSettlement(events[1..])
    else SettlementOf(events[0])
  }

  lemma {:induction false} FirstSettlementSnoc(events: seq<MediaEvent>, e: MediaEvent)
    ensures FirstSettlement(events + [e]) ==
      if FirstSettlement(events).Pending? then SettlementOf(e) else FirstSettlement(events)
  {
    if events == [] {
      assert [e][1..] == [];
    } else {
      assert (events + [e])[1..] == events[1..] + [e];
      FirstSettlementSnoc(events[1..], e);
    }
  }

  /** The trace discipline an extraction keeps: the temporary URL is
      created once, first; every settle call follows a revoke; a settled
      promise has seen its URL revoked. */
  predicate Disciplined(x: Extraction)
  {
    && 1 <= |x.effects| && x.effects[0] == CreateUrl
    && (forall i :: 0 < i < |x.effects| ==> x.effects[i] != CreateUrl)
    && CleanupPrecedesSettle(x.effects)
    && (!x.result.Pending? ==> Revoke in x.effects)
  }

  lemma CleanupAndSettleDisciplined(x: Extraction, s: Settlement)
    requires Disciplined(x) && !s.Pending?
    ensures Disciplined(CleanupAndSettle(x, s))
  {
    var e := x.effects + [Revoke, Settle(s)];
    assert e[|x.effects|] == Revoke;
    forall i | 0 <= i < |e| && e[i].Settle?
      ensures 0 < i && e[i - 1] == Revoke
    {
      if i < |x.effects| {
        assert e[i - 1] == x.effects[i - 1];
      }
    }
  }

  lemma RecordDisciplined(x: Extraction, effect: Effect)
    requires Disciplined(x) && !effect.Settle? && effect != CreateUrl
    ensures Disciplined(Extraction(x.effects + [effect], x.result))
  {
    var e := x.effects + [effect];
    forall i | 0 <= i < |e| && e[i].Settle?
      ensures 0 < i && e[i - 1] == Revoke
    {
      assert e[i - 1] == x.effects[i - 1];
    }
  }

  lemma DispatchDisciplined(x: Extraction, e: MediaEvent)
    requires Disciplined(x)
    ensures Disciplined(Dispatch(x, e))
    ensures Dispatch(x, e).result == if x.result.Pending? then SettlementOf(e) else x.result
  {
    match e
    case LoadError => CleanupAndSettleDisciplined(x, Rejected(LoadErrorMessage));
    case LoadedMetadata => RecordDisciplined(x, SeekNearEnd);
    case Seeked(w, h, frame) =>
      var effect := SizeCanvas(CanvasWidth(w), CanvasHeight(h));
      RecordDisciplined(x, effect);
      var sized := Extraction(x.effects + [effect], x.result);
      match frame
      case Encoded(d) => CleanupAndSettleDisciplined(sized, Resolved(d));
      case Threw(reason) => CleanupAndSettleDisciplined(sized, Rejected(reason));
  }

  /** The extraction after the listeners have seen `events` in order. */
  function GenerateThumbnail(events: seq<MediaEvent>): (x: Extraction)
    ensures Disciplined(x)
    ensures x.result == FirstSettlement(events)
    decreases |events|
  {
    if events == [] then Extraction([CreateUrl], Pending)
    else
      var n := |events| - 1;
      assert events == events[..n] + [events[n]];
      var x := GenerateThumbnail(events[..n]);
      FirstSettlementSnoc(events[..n], events[n]);
      DispatchDisciplined(x, events[n]);
      Dispatch(x, events[n])
  }

  /** While the promise is pending no `cleanup` has run, so a stalled
      extraction never revokes its temporary URL. */
  lemma {:induction false} StalledKeepsUrl(events: seq<MediaEvent>)
    ensures FirstSettlement(events).Pending? ==> Revoke !in GenerateThumbnail(events).effects
    decreases |events|
  {
    if events != [] {
      var n := |events| - 1;
      assert events == events[..n] + [events[n]];
      FirstSettlementSnoc(events[..n], events[n]);
      StalledKeepsUrl(events[..n]);
    }
  }

  /** `effect` sizes the canvas for one of the `seeked` events of `events`,
      with the 640×360 fallback for a zero dimension. */
  predicate SizedBySomeSeek(effect: Effect, events: seq<MediaEvent>)
  {
    exists j :: 0 <= j < |events| && events[j].Seeked? &&
      effect == SizeCanvas(CanvasWidth(events[j].videoWidth), CanvasHeight(events[j].videoHeight))
  }

  /** Every canvas size the extraction sets comes from a `seeked` event's
      video size through `CanvasWidth` and `CanvasHeight`. */
  lemma {:induction false} CanvasSizedByFallback(events: seq<MediaEvent>)
    ensures forall i :: 0 <= i < |GenerateThumbnail(events).effects| && GenerateThumbnail(events).effects[i].SizeCanvas? ==>
      SizedBySomeSeek(GenerateThumbnail(events).effects[i], events)
    decreases |events|
  {
    if events != [] {
      var n := |events| - 1;
      var prefix := events[..n];
      assert events == prefix + [events[n]];
      CanvasSizedByFallback(prefix);
      var before := GenerateThumbnail(prefix).effects;
      var effects := GenerateThumbnail(events).effects;
      assert effects[..|before|] == before;
      forall i | 0 <= i < |effects| && effects[i].SizeCanvas?
        ensures SizedBySomeSeek(effects[i], events)
      {
        if i < |before| {
          assert effects[i] == before[i];
          assert SizedBySomeSeek(before[i], prefix);
          var j :| 0 <= j < |prefix| && prefix[j].Seeked? &&
            before[i] == SizeCanvas(CanvasWidth(prefix[j].videoWidth), CanvasHeight(prefix[j].videoHeight));
          assert events[j] == prefix[j];
        } else {
          assert events[n].Seeked?;
        }
      }
    }
  }

  /** The promise stays pending exactly when no event ever settles it: the
      element only loaded metadata (or fired nothing), and an awaiting
      caller never resumes. `StalledKeepsUrl` shows that the temporary URL
      then stays unrevoked. */
  lemma {:induction false} PendingIffNoSettlingEvent(events: seq<MediaEvent>)
    ensures FirstSettlement(events).Pending? <==> forall i :: 0 <= i < |events| ==> events[i] == LoadedMetadata
  {
    if events != [] {
      PendingIffNoSettlingEvent(events[1..]);
      assert forall i :: 1 <= i < |events| ==> events[i] == events[1..][i - 1];
    }
  }
}

=== FILE: util.dfy ===
/** Small shared vocabulary: optional values, results with an error, and
    sequence reversal (the gallery shows the store's listing reversed). */
module Util {

  datatype Option<+T> = None | Some(value: T)

  datatype Result<+T, +E> = Ok(value: T) | Err(error: E)

  /** The elements of `s` in the opposite order. */
  function Reverse<T>(s: seq<T>): (r: seq<T>)
    ensures |r| == |s|
    ensures forall i :: 0 <= i < |s| ==> r[i] == s[|s| - 1 - i]
  {
    if s == [] then [] else Reverse(s[1..]) + [s[0]]
  }

  /** Reversing a sequence with one more element at its front puts that element last. */
  lemma ReverseCons<T>(x: T, s: seq<T>)
    ensures Reverse([x] + s) == Reverse(s) + [x]
  {
    assert ([x] + s)[1..] == s;
  }

  /** The suffix from `n` is the element at `n` followed by the suffix after it. */
  lemma HeadAndRest<T>(s: seq<T>, n: nat)
    requires n < |s|
    ensures s[n] == s[n..][0] && s[n + 1..] == s[n..][1..]
  {
  }

  predicate Ascending(s: seq<nat>)
  {
    forall i, j :: 0 <= i < j < |s| ==> s[i] < s[j]
  }

  predicate Descending(s: seq<nat>)
  {
    forall i, j :: 0 <= i < j < |s| ==> s[i] > s[j]
  }

  lemma ReverseOfAscending(s: seq<nat>)
    requires Ascending(s)
    ensures Descending(Reverse(s))
  {
    var r := Reverse(s);
    forall i, j | 0 <= i < j < |r|
      ensures r[i] > r[j]
    {
      assert r[i] == s[|s| - 1 - i] && r[j] == s[|s| - 1 - j];
    }
  }
}
